=== FILE: README.md ===
# Safe batch renamer: planner and apply loop

This project models the core of `rename_files.py`, a script that renames every regular file of a folder to `prefix + counter + extension`. The core has two parts:

- **The planner, `plan_renames`.** It lists the folder and sorts the entries by name. It skips directories and files that already carry the prefix. Every other file gets the first candidate name `f"{prefix}{counter}{ext}"` that does not exist in the folder, and the counter moves one past the value used. The planner returns the list of `(old, new)` pairs.
- **The apply loop at the end of `main`.**
  - A dry run changes nothing.
  - Otherwise each pair whose target now exists is skipped.
  - Every other pair is attempted, and a failed attempt is logged. The loop then goes on with the next pair.

The Dafny modules follow that structure:

- `Decimal`: Python's `str(int)` as used inside the f-string. Its inverse shows that different counters render differently.
- `PathNames`: `str.startswith` and `PurePath.suffix` on a single file name.
- `Listing`: directory entries, and Python's string order. It also holds a stable sort standing in for `sorted(..., key=lambda p: p.name)`.
- `Planner`: `plan_renames`, in two forms.
  - `Plan` is a recursive definition, about which the properties are proved.
  - `PlanRenames` is a method with the script's loops, proved to compute the same plan.
- `Executor`: the dry-run switch and the apply loop over a snapshot of the folder's names.
- `Scenarios`: worked examples on small folders, proved equal to concrete plans and reports.

**The folder.** It is a listing `seq<Entry>` of names with an "is a regular file" flag. The model reads "`candidate.exists()`" as exact-name membership in the set of listed names, taken when planning starts. "## Left out" lists the ways a real filesystem departs from that reading. The operating system's verdict on `old.rename(new)` is a parameter `refuse(old, new)`.

**Plan items.** Each `Rename` item carries, next to the source and target names, the counter value its target was rendered from (`index`). The script does not store this value, but the target's name encodes it.

**Two consequences of the code worth stating:**

- The search for a free name consults only the folder (`candidate.exists()`, line 37), never the targets chosen earlier in the same plan. `Planner.PlanTargetsDistinct` proves the plan's targets distinct anyway: counters strictly increase, and different counters give different names.
- The counter advances on a collision (line 39) and once after each emitted pair (line 42), so numbering is contiguous unless a search meets a taken candidate. Three unprefixed files with no collisions are numbered 1, 2 and 3. `Scenarios.ContiguousNumbering` shows this on an example, and `Planner.PlanContiguousIff` states exactly when numbering skips a value.

## Model

| member | source | states |
|---|---|---|
| Decimal.IntToString | rename_files.py:36 | The rendering of the counter has at least one character. It starts with '-' exactly for negative values, and is otherwise made of decimal digits. It never contains a '.', so it cannot run into the extension. |
| Decimal.IntToStringCanonical | rename_files.py:36 | The rendering has no leading zero, as `str(int)` has none: "0" renders zero only, and a '-' is followed by a non-zero digit. |
| Decimal.ParseIntToString | rename_files.py:36 | Reading a rendered counter back gives the counter: the rendering loses nothing. |
| Decimal.IntToStringInjective | rename_files.py:36 | Two different counters never render to the same text. |
| PathNames.Suffix | rename_files.py:34 | `p.suffix` is empty, or a '.' followed by at least one character and no further '.'. It is the tail of the name, and is shorter than the name when non-empty. |
| PathNames.SuffixEmptyIff | rename_files.py:34 | The suffix is empty exactly when the name has no '.', when its only '.' is the leading one, or when it ends in '.'. |
| PathNames.SuffixOfAppended | rename_files.py:34 | A name formed from a non-empty stem and an extension has that extension as its suffix. |
| Listing.NameLeIsLexLe | rename_files.py:24 | The order used by the sort is lexicographic order on code points: a prefix sorts first, and otherwise the first differing character decides. |
| Listing.NameLeTotal | rename_files.py:24 | Any two names are comparable under the sort order. |
| Listing.NameLeTransitive | rename_files.py:24 | The sort order is transitive. |
| Listing.NameLeAntisymmetric | rename_files.py:24 | Names that sort before each other are equal. |
| Listing.Insert | rename_files.py:24 | Inserting an entry into a sorted listing keeps it sorted, and adds exactly that entry. |
| Listing.SortByName | rename_files.py:24 | `sorted(folder.iterdir(), key=name)` is in ascending name order and a permutation of the listing. |
| Listing.SortByNameNames | rename_files.py:24 | Sorting keeps the set of names. |
| Listing.SortByNameDistinct | rename_files.py:24 | Sorting a listing whose names are distinct keeps them distinct. |
| PathNames.StartsWith | rename_files.py:31 | Definition of `str.startswith`: the name's first `len(prefix)` characters are the prefix. `Planner.EmptyPrefixPlansNothing` and `Planner.TargetsPrefixed` state what follows from it. |
| Planner.Candidate | rename_files.py:36 | Definition of the f-string `f"{prefix}{counter}{ext}"`. `Planner.CandidateStartsWithPrefix`, `Planner.CandidateInjective` and `Planner.PlanKeepsExtension` state its properties. |
| Planner.Eligible | rename_files.py:29-32 | Definition of the two `continue` tests: a regular file whose name lacks the prefix. `Planner.EligibleEntries` and `Planner.PlanSources` state which entries it admits. |
| Planner.PlanFrom | rename_files.py:28-42 | Definition of the outer loop from a given entry on, with the counter as it stands there. `Planner.PlanFromSources`, `Planner.PlanFromChosen` and `Planner.PlanFromUnique` state and characterise its result. |
| Planner.CandidateStartsWithPrefix | rename_files.py:36 | Every candidate name starts with the prefix. |
| Planner.CandidateInjective | rename_files.py:36 | Two candidates, whose extensions are suffixes, are equal only when their counters and extensions are equal. |
| Planner.NextFree | rename_files.py:35-39 | The search loop stops at a counter no smaller than where it began. The candidate for that counter is absent from the folder, and the candidates of all counters passed over are present. So the result is the least free counter, and the loop terminates. |
| Planner.SearchFree | rename_files.py:35-39 | The `while True` loop, written as a loop, ends at the least free counter. |
| Planner.Choose | rename_files.py:34-41 | The pair emitted for a file renames that file. Its target is the candidate for the chosen counter and the file's suffix, and it is not in the folder. Every counter skipped on the way was taken. |
| Planner.EligibleEntries | rename_files.py:28-32 | The files the loop does not `continue` past are exactly the regular files without the prefix, and no more entries than the listing has. |
| Planner.EligibleEntriesKeepSorted | rename_files.py:24-32 | The files the loop renames are met in ascending name order. |
| Planner.EligibleEntriesKeepDistinct | rename_files.py:24-32 | The files the loop renames have distinct names when the folder's names are distinct. |
| Planner.PlanFromSources | rename_files.py:28-41 | Walking the listing emits one pair per file it renames, in order, each renaming that file. |
| Planner.PlanFromChosen | rename_files.py:26-42 | Each emitted pair is what the search loop settles on. Each search starts one past the previous pair's counter, and the first starts at `start`. |
| Planner.LeastFreeIsNextFree | rename_files.py:35-39 | A counter at or after the start of the search, whose candidate is free and before which every candidate is taken, is the one the search loop stops at. |
| Planner.ChosenIsChoose | rename_files.py:34-41 | An item that meets everything the search loop guarantees is exactly the item the loop produces for its source. |
| Planner.PlanFromUnique | rename_files.py:28-42 | Any list that renames the eligible entries in order, with every item chosen by the search loop, is the list the outer loop builds. |
| Planner.NameFor | rename_files.py:34-41 | One turn of the outer loop, written with its search loop, renames the given file. The target is the candidate for the file's own suffix and a counter at or above the current one, and it is not in the folder. Every counter passed over had its candidate in the folder, so the counter is the least free one. |
| Planner.Plan | rename_files.py:18-44 | The plan has no more items than the folder has entries. No target is a name already in the folder (with "exists" read as membership in the listed names, see Left out), and every target is `prefix + str(counter) + suffix of the source`. |
| Planner.PlanRenames | rename_files.py:18-44 | The script's loops, with a running counter and the inner search, compute exactly the plan `Plan` defines. |
| Planner.PlanRenamesEligibleInOrder | rename_files.py:24-41 | Item `i` of the plan renames the `i`-th regular, unprefixed file in name order, and there is one item per such file. |
| Planner.PlanCounterIsLeastFree | rename_files.py:26-42 | Each item's counter is the least free one at or after where its search began. That is `start` for the first item, and one past the previous item's counter after that. |
| Planner.PlanCharacterized | rename_files.py:18-44 | A list of renames is the planner's output exactly when it renames the regular, unprefixed files in name order, one item each, and every item takes the least free counter at or after where its search began. |
| Planner.PlanSources | rename_files.py:28-41 | Every source is a regular file of the folder that lacks the prefix. Every such file is a source. |
| Planner.PlanEmptyIff | rename_files.py:28-44 | The plan is empty exactly when the folder holds no regular file without the prefix. In that case `main` reports that there is nothing to rename. |
| Planner.EmptyPrefixPlansNothing | rename_files.py:31-32 | With an empty prefix every name counts as already renamed, so nothing is planned. |
| Planner.PlanInNameOrder | rename_files.py:24-28 | Sources appear in ascending name order. They are distinct when the folder's names are. |
| Planner.CountersIncrease | rename_files.py:35-42 | Along a plan whose every search went upward from its starting point, counters are at least `start` and strictly increase. |
| Planner.PlanCountersIncrease | rename_files.py:26-42 | The plan's counters are at least `start` and strictly increase from item to item. |
| Planner.PlanContiguousIff | rename_files.py:26-42 | The counters are exactly start, start+1, start+2, and so on if and only if every item's first candidate, for counter start+i and its own suffix, is free in the folder. |
| Planner.PlanContiguous | rename_files.py:26-42 | When no candidate of any counter and any extension is in the folder, the counters are exactly start, start+1, start+2, and so on: no value is skipped. |
| Planner.PlanTargetsDistinct | rename_files.py:35-42 | No two items share a target, although the search never looks at targets chosen earlier. |
| Planner.PlanKeepsExtension | rename_files.py:34-36 | A file with an extension keeps that extension: the target's suffix is the source's suffix. |
| Planner.TargetsPrefixed | rename_files.py:36 | Every target starts with the prefix. |
| Planner.ReplanIsEmpty | rename_files.py:21 | Planning again after the plan was carried out plans nothing. The regular files are then only files the plan left alone, which already carried the prefix, and targets, which carry it. |
| Executor.Step | rename_files.py:78-84 | Definition of one turn of the apply loop: skip when the target exists, fail when the source is gone or the system refuses, otherwise rename. `Executor.StepKeepsCount` states its property, and `Executor.ApplyFreshOutcomes` and `Executor.ApplyFreshNames` state the loop's. |
| Executor.StepKeepsCount | rename_files.py:78-84 | One turn of the loop leaves the folder with as many names as before: a rename trades a present name for an absent one, and a skip or a failure changes nothing. |
| Executor.ApplyPlanKeepsCount | rename_files.py:77-84 | The whole loop leaves the folder with as many names as before, for every plan and whatever the system refuses: renames never merge or lose files. |
| Executor.ApplyPlan | rename_files.py:77-84 | The loop reports one outcome per pair. The folder afterwards keeps every name that was not a source, and gains nothing but targets. |
| Executor.Execute | rename_files.py:73-84 | A dry run leaves the folder unchanged and attempts nothing. Otherwise there is one outcome per pair, and only sources can vanish and only targets appear. |
| Executor.Accepted | rename_files.py:81-84 | The pairs the system lets through are exactly those of the plan it does not refuse. |
| Executor.ApplyFreshOutcomes | rename_files.py:77-84 | On a plan whose sources are present and whose targets are absent and distinct, no pair is skipped. Each pair is renamed unless refused, and a refusal affects only its own pair. |
| Executor.ApplyFreshNames | rename_files.py:77-84 | On such a plan the folder ends up without the accepted sources and with their targets. |
| Executor.ExecuteFreshPlan | rename_files.py:64-84 | Carrying out a freshly computed plan on a folder with distinct names skips nothing. Each pair is renamed unless refused. When nothing is refused, the folder becomes its names minus the sources plus the targets. A dry run changes nothing. |
| Scenarios.ContiguousNumbering | rename_files.py:24-44 | `b.txt`, `a.txt` and `report.pdf` with prefix `file_` from 1 plan `a.txt` to `file_1.txt`, `b.txt` to `file_2.txt` and `report.pdf` to `file_3.pdf`. |
| Scenarios.AlreadyPrefixed | rename_files.py:31-32 | A folder holding only `file_1.txt` plans nothing. |
| Scenarios.CollisionBumpsCounter | rename_files.py:35-39 | With `file_1.txt` present, `a.txt` becomes `file_2.txt`. |
| Scenarios.RefusalDoesNotStopTheRest | rename_files.py:81-84 | When the second of three renames is refused, the first and third still happen and the refused file keeps its name. |
| Scenarios.LateCollisionIsSkipped | rename_files.py:78-80 | A target that appeared after planning makes its pair be skipped, and the next pair is still renamed. |

## Left out

- Argument parsing (`parse_args`, lines 47-53) and logging: they are I/O. The log lines carry no state the model needs.
- The folder-exists check in `main` (lines 60-62): with no folder there is no listing to model.
- The "No files to rename" early return and the listing of planned pairs (lines 65-71): they only log. `Planner.PlanEmptyIff` states when the plan is empty.
- The real filesystem.
  - "exists" is membership in a snapshot of names.
  - The operating system's refusal of a rename is an abstract parameter. The model takes it to be a function of the two names, so it does not model a call that fails one moment and succeeds the next.
  - Races between planning and applying appear only through the folder's names passed to the apply loop.
- Prefixes containing '/' or other path syntax, which would make `folder / name` point outside the folder: names are treated as single path components.
- Symbolic links and special files: an entry is a regular file or not, as `Path.is_file()` reports.
- Dangling symbolic links. `Path.exists()` follows links, so a dangling link named like a candidate does not count as taken (line 37), and `old.rename(new)` (line 82) would replace it. The model counts every listed name as taken, so it would pick the next counter there. `Planner.Plan`'s promise that no target is already in the folder holds of the program only when no listed name is a dangling link.
- Case-insensitive filesystems (the default on macOS and Windows). There `candidate.exists()` is true when a name differing only in case is present, and the program skips that counter. The model compares names exactly, as a case-sensitive filesystem does.
- Unicode normalization. HFS+ stores names in decomposed form, even in its case-sensitive variant, so there `candidate.exists()` is true when the folder holds a name that differs from the candidate only in normalization form, and the program skips that counter. The model compares code points exactly.
- Failing `exists()` and `is_file()` calls under Python 3.12. Its `pathlib` re-raises any error from `stat` other than "no such file", "not a directory", "bad file descriptor" and "too many symbolic links". A candidate name longer than the filesystem allows is one example. The target keeps only the file's suffix, so this takes a long suffix: `"a." + "b"*251` gives the 258-character candidate `file_1.bbb…`. Any prefix longer than 255 characters does it for every file. Neither `plan_renames` nor `main` (line 64) catches the error, so the run stops with no plan and no rename. `Planner.Plan` is total: it plans such a name, and the apply loop in `Executor` records that pair as `Failed` and renames the rest. That is what the script does under later `pathlib` versions that answer through `os.path.exists` and `os.path.isfile`, which return False on any such error.
- Names holding undecodable bytes. Python represents them with lone surrogate code points, which Dafny's `char` cannot hold, so such names are outside the model.
- Python 3.14 changed `PurePath.suffix` to return "." for a name ending in '.'. `PathNames.Suffix` follows the earlier behaviour, which returns "".
- `scrape_simple.py` and `app.py` are not part of this model. They share no code with the renamer.
- Exception messages of failed renames. A rename whose source is no longer in the folder is a failure, just as Python's exception there is logged and passed over.

=== FILE: decimal.dfy ===
/** Decimal rendering of integers, as Python's `str(int)` produces it inside an
    f-string: an optional leading '-', then the digits of the magnitude with no
    leading zeros. The rename planner relies on two facts about it: the
    rendering never contains a '.', and different integers render differently. */
module Decimal {

  predicate IsDigit(c: char) {
    '0' <= c <= '9'
  }

  predicate AllDigits(s: string) {
    forall i :: 0 <= i < |s| ==> IsDigit(s[i])
  }

  function DigitChar(d: int): (c: char)
    requires 0 <= d < 10
    ensures IsDigit(c)
    ensures DigitValue(c) == d
  {
    "0123456789"[d]
  }

  function DigitValue(c: char): (d: nat)
    requires IsDigit(c)
    ensures d < 10
  {
    (c as int) - ('0' as int)
  }

  /** The decimal digits of a natural number, most significant first. */
  function NatToString(n: nat): (s: string)
    ensures |s| >= 1
    ensures AllDigits(s)
    ensures s[0] == '0' ==> n == 0
    decreases n
  {
    if n < 10 then [DigitChar(n)]
    else NatToString(n / 10) + [DigitChar(n % 10)]
  }

  /** Python's `str(n)` for an integer `n`. */
  function IntToString(n: int): (s: string)
    ensures |s| >= 1
    ensures s[0] == '-' <==> n < 0
    ensures forall i :: 0 < i < |s| ==> IsDigit(s[i])
    ensures n >= 0 ==> IsDigit(s[0])
    ensures '.' !in s
  {
    if n < 0 then "-" + NatToString(-n) else NatToString(n)
  }

  /** The rendering is canonical, as Python's is: no leading zero, "0" only
      for zero, and a '-' is followed by a non-zero digit. */
  lemma IntToStringCanonical(n: int)
    ensures n < 0 ==> |IntToString(n)| >= 2 && IntToString(n)[1] != '0'
    ensures n >= 0 && |IntToString(n)| >= 2 ==> IntToString(n)[0] != '0'
    ensures n == 0 <==> IntToString(n) == "0"
  {
  }

  /** Reads a string of digits back as a number (the inverse of NatToString). */
  function ParseNat(s: string): (n: nat)
    requires AllDigits(s)
  {
    if |s| == 0 then 0
    else ParseNat(s[..|s| - 1]) * 10 + DigitValue(s[|s| - 1])
  }

  /** Reads an optional '-' followed by digits (the inverse of IntToString). */
  function ParseInt(s: string): int
    requires |s| >= 1
    requires s[0] == '-' ==> AllDigits(s[1..])
    requires s[0] != '-' ==> AllDigits(s)
  {
    if s[0] == '-' then -(ParseNat(s[1..]) as int) else ParseNat(s)
  }

  lemma {:induction false} ParseNatToString(n: nat)
    ensures ParseNat(NatToString(n)) == n
    decreases n
  {
    if n >= 10 {
      var s := NatToString(n);
      assert s[..|s| - 1] == NatToString(n / 10);
      assert s[|s| - 1] == DigitChar(n % 10);
      ParseNatToString(n / 10);
    }
  }

  lemma ParseIntToString(n: int)
    ensures ParseInt(IntToString(n)) == n
  {
    var s := IntToString(n);
    if n < 0 {
      assert s[0] == '-' && s[1..] == NatToString(-n);
      ParseNatToString(-n);
      assert ParseInt(s) == -(ParseNat(NatToString(-n)) as int);
    } else {
      assert s == NatToString(n);
      ParseNatToString(n);
    }
  }

  /** Different integers have different renderings. */
  lemma IntToStringInjective(a: int, b: int)
    ensures IntToString(a) == IntToString(b) ==> a == b
  {
    ParseIntToString(a);
    ParseIntToString(b);
  }
}

=== FILE: executor.dfy ===
/** The apply loop at the end of `main` in `rename_files.py`, over a snapshot of
    the folder's names: a dry run changes nothing; otherwise each planned
    rename is skipped when its target already exists, else attempted, and a
    failed attempt is logged and the loop goes on with the next item. */
module Executor {
  import opened Listing
  import opened Planner

  /** What became of one planned rename. */
  datatype Outcome = Renamed | SkippedTargetExists | Failed

  /** The folder's names after the loop, and one outcome per item processed. */
  datatype Report = Report(names: set<string>, outcomes: seq<Outcome>)

  /** One turn of the loop. `refuse(old, new)` stands for the operating system
      rejecting `old.rename(new)` (permissions, a vanished directory, ...);
      renaming a name that is no longer in the folder fails as well. */
  function Step(item: Rename, names: set<string>, refuse: (string, string) -> bool): (Outcome, set<string>)
  {
    if item.target in names then (SkippedTargetExists, names)
    else if item.source !in names || refuse(item.source, item.target) then (Failed, names)
    else (Renamed, names - {item.source} + {item.target})
  }

  /** The `for old, new in plan` loop with dry run off. */
  function ApplyPlan(plan: seq<Rename>, names: set<string>, refuse: (string, string) -> bool): (r: Report)
    ensures |r.outcomes| == |plan|
    ensures names - Sources(plan) <= r.names <= names + Targets(plan)
  {
    if |plan| == 0 then Report(names, [])
    else
      var (o, next) := Step(plan[0], names, refuse);
      var rest := ApplyPlan(plan[1..], next, refuse);
      assert plan == [plan[0]] + plan[1..];
      assert Sources(plan) == {plan[0].source} + Sources(plan[1..]);
      assert Targets(plan) == {plan[0].target} + Targets(plan[1..]);
      Report(rest.names, [o] + rest.outcomes)
  }

  /** A turn never changes how many names the folder holds: a rename trades
      one name present for one absent. */
  lemma StepKeepsCount(item: Rename, names: set<string>, refuse: (string, string) -> bool)
    ensures |Step(item, names, refuse).1| == |names|
  {
    var (o, next) := Step(item, names, refuse);
    if o == Renamed {
      assert |names - {item.source}| == |names| - 1;
    }
  }

  /** The whole loop never changes how many names the folder holds, whatever
      the plan and whatever the operating system refuses. */
  lemma {:induction false} ApplyPlanKeepsCount(plan: seq<Rename>, names: set<string>, refuse: (string, string) -> bool)
    ensures |ApplyPlan(plan, names, refuse).names| == |names|
    decreases |plan|
  {
    if |plan| > 0 {
      StepKeepsCount(plan[0], names, refuse);
      ApplyPlanKeepsCount(plan[1..], Step(plan[0], names, refuse).1, refuse);
    }
  }

  /** Lines 73-84 of `main`: with `dryRun` the folder is left as it was and
      nothing is attempted. */
  function Execute(plan: seq<Rename>, names: set<string>, dryRun: bool, refuse: (string, string) -> bool): (r: Report)
    ensures dryRun ==> r.names == names && r.outcomes == []
    ensures !dryRun ==> |r.outcomes| == |plan|
    ensures names - Sources(plan) <= r.names <= names + Targets(plan)
  {
    if dryRun then Report(names, []) else ApplyPlan(plan, names, refuse)
  }

  /** A plan whose sources are all in the folder, whose targets all are not,
      and in which no source and no target occurs twice. */
  ghost predicate FreshFor(plan: seq<Rename>, names: set<string>) {
    && (forall i :: 0 <= i < |plan| ==> plan[i].source in names && plan[i].target !in names)
    && (forall i, j :: 0 <= i < j < |plan| ==>
          plan[i].source != plan[j].source && plan[i].target != plan[j].target)
  }

  /** The items the operating system lets through. */
  function Accepted(plan: seq<Rename>, refuse: (string, string) -> bool): (r: seq<Rename>)
    ensures forall x :: x in r <==> x in plan && !refuse(x.source, x.target)
  {
    if |plan| == 0 then []
    else
      assert plan == [plan[0]] + plan[1..];
      if refuse(plan[0].source, plan[0].target) then Accepted(plan[1..], refuse)
      else [plan[0]] + Accepted(plan[1..], refuse)
  }

  /** After the first item of a fresh plan is carried out (or refused), the
      rest of the plan is fresh for the folder as it then is. */
  lemma FreshTail(plan: seq<Rename>, names: set<string>, refuse: (string, string) -> bool)
    requires FreshFor(plan, names) && |plan| > 0
    ensures FreshFor(plan[1..], Step(plan[0], names, refuse).1)
  {
    var next := Step(plan[0], names, refuse).1;
    var tail := plan[1..];
    forall i | 0 <= i < |tail|
      ensures tail[i].source in next && tail[i].target !in next
    {
      assert tail[i] == plan[i + 1];
    }
    forall i, j | 0 <= i < j < |tail|
      ensures tail[i].source != tail[j].source && tail[i].target != tail[j].target
    {
      assert tail[i] == plan[i + 1] && tail[j] == plan[j + 1];
    }
  }

  /** The sources the tail of a fresh plan renames are folder names other than
      the first item's source. */
  lemma TailSourcesElsewhere(plan: seq<Rename>, names: set<string>, refuse: (string, string) -> bool)
    requires FreshFor(plan, names) && |plan| > 0
    ensures Sources(Accepted(plan[1..], refuse)) <= names - {plan[0].source}
  {
    var tail := plan[1..];
    var acc := Accepted(tail, refuse);
    forall x | x in Sources(acc)
      ensures x in names - {plan[0].source}
    {
      var y :| y in acc && y.source == x;
      var i :| 0 <= i < |tail| && tail[i] == y;
      assert tail[i] == plan[i + 1];
    }
  }

  /** Carrying out a fresh plan skips nothing: each item is renamed unless the
      operating system refuses it, and a refusal affects no other item. */
  lemma {:induction false} ApplyFreshOutcomes(plan: seq<Rename>, names: set<string>, refuse: (string, string) -> bool)
    requires FreshFor(plan, names)
    ensures var r := ApplyPlan(plan, names, refuse);
            forall i :: 0 <= i < |plan| ==>
              r.outcomes[i] == (if refuse(plan[i].source, plan[i].target) then Failed else Renamed)
    decreases |plan|
  {
    if |plan| > 0 {
      FreshTail(plan, names, refuse);
      ApplyFreshOutcomes(plan[1..], Step(plan[0], names, refuse).1, refuse);
      var r := ApplyPlan(plan, names, refuse);
      forall i | 1 <= i < |plan|
        ensures r.outcomes[i] == (if refuse(plan[i].source, plan[i].target) then Failed else Renamed)
      {
        assert plan[i] == plan[1..][i - 1];
      }
    }
  }

  /** Carrying out a fresh plan leaves the folder without the sources the
      operating system let through and with their targets. */
  lemma {:induction false} ApplyFreshNames(plan: seq<Rename>, names: set<string>, refuse: (string, string) -> bool)
    requires FreshFor(plan, names)
    ensures ApplyPlan(plan, names, refuse).names
              == names - Sources(Accepted(plan, refuse)) + Targets(Accepted(plan, refuse))
    decreases |plan|
  {
    if |plan| > 0 {
      var item := plan[0];
      var tail := plan[1..];
      FreshTail(plan, names, refuse);
      ApplyFreshNames(tail, Step(item, names, refuse).1, refuse);
      TailSourcesElsewhere(plan, names, refuse);
      var acc := Accepted(tail, refuse);
      assert plan == [item] + tail;
      if !refuse(item.source, item.target) {
        assert Accepted(plan, refuse) == [item] + acc;
        assert Sources([item] + acc) == {item.source} + Sources(acc);
        assert Targets([item] + acc) == {item.target} + Targets(acc);
      }
    }
  }

  /** Carrying out a freshly computed plan on the folder it was computed from:
      no item is skipped, each is renamed unless refused, and when nothing is
      refused the folder becomes the names minus the sources plus the targets. A dry run
      changes nothing. */
  lemma ExecuteFreshPlan(listing: seq<Entry>, prefix: string, start: int, dryRun: bool,
                         refuse: (string, string) -> bool)
    requires DistinctNames(listing)
    ensures var plan := Plan(listing, prefix, start);
            var r := Execute(plan, Names(listing), dryRun, refuse);
            && (dryRun ==> r.names == Names(listing) && r.outcomes == [])
            && (!dryRun ==> forall i :: 0 <= i < |plan| ==>
                  r.outcomes[i] == (if refuse(plan[i].source, plan[i].target) then Failed else Renamed))
            && (!dryRun ==> r.names == Names(listing) - Sources(Accepted(plan, refuse))
                                       + Targets(Accepted(plan, refuse)))
            && (!dryRun && (forall i :: 0 <= i < |plan| ==> !refuse(plan[i].source, plan[i].target)) ==>
                  r.names == Names(listing) - Sources(plan) + Targets(plan))
  {
    var plan := Plan(listing, prefix, start);
    var names := Names(listing);
    PlanSources(listing, prefix, start);
    PlanInNameOrder(listing, prefix, start);
    PlanTargetsDistinct(listing, prefix, start);
    assert FreshFor(plan, names) by {
      forall i | 0 <= i < |plan|
        ensures plan[i].source in names
      {
        assert Entry(plan[i].source, true) in listing;
      }
    }
    ApplyFreshOutcomes(plan, names, refuse);
    ApplyFreshNames(plan, names, refuse);
    if forall i :: 0 <= i < |plan| ==> !refuse(plan[i].source, plan[i].target) {
      AcceptedAll(plan, refuse);
    }
  }

  lemma {:induction false} AcceptedAll(plan: seq<Rename>, refuse: (string, string) -> bool)
    requires forall i :: 0 <= i < |plan| ==> !refuse(plan[i].source, plan[i].target)
    ensures Accepted(plan, refuse) == plan
    decreases |plan|
  {
    if |plan| > 0 {
      assert !refuse(plan[0].source, plan[0].target);
      AcceptedAll(plan[1..], refuse);
      assert plan == [plan[0]] + plan[1..];
    }
  }
}

=== FILE: listing.dfy ===
/** A directory listing: its entries, Python's ordering of names, and the
    `sorted(folder.iterdir(), key=lambda p: p.name)` the planner starts from. */
module Listing {

  /** One entry of a directory: its name and whether `Path.is_file()` holds. */
  datatype Entry = Entry(name: string, isFile: bool)

  /** Python's `a <= b` on `str`: code-point by code-point comparison, where a
      proper prefix sorts first. */
  predicate NameLe(a: string, b: string)
    decreases |a|
  {
    |a| == 0 || (|b| > 0 && (a[0] < b[0] || (a[0] == b[0] && NameLe(a[1..], b[1..]))))
  }

  /** The textbook statement of lexicographic order: `a` is a prefix of `b`, or
      the two first differ at a position where `a` has the smaller character. */
  ghost predicate LexLe(a: string, b: string) {
    (|a| <= |b| && a == b[..|a|])
    || exists k :: 0 <= k < |a| && k < |b| && a[..k] == b[..k] && a[k] < b[k]
  }

  lemma {:induction false} NameLeIsLexLe(a: string, b: string)
    ensures NameLe(a, b) <==> LexLe(a, b)
    decreases |a|
  {
    if |a| > 0 && |b| > 0 {
      NameLeIsLexLe(a[1..], b[1..]);
      if a[0] == b[0] {
        if LexLe(a[1..], b[1..]) {
          LexLeOfTails(a, b);
        }
        if LexLe(a, b) {
          TailsOfLexLe(a, b);
        }
      } else if a[0] < b[0] {
        assert a[..0] == b[..0];
      }
    }
  }

  /** With equal first characters, order on the tails gives order on the whole. */
  lemma LexLeOfTails(a: string, b: string)
    requires |a| > 0 && |b| > 0 && a[0] == b[0]
    requires LexLe(a[1..], b[1..])
    ensures LexLe(a, b)
  {
    if !(|a[1..]| <= |b[1..]| && a[1..] == b[1..][..|a[1..]|]) {
      var k :| 0 <= k < |a[1..]| && k < |b[1..]| && a[1..][..k] == b[1..][..k] && a[1..][k] < b[1..][k];
      assert a[..k + 1] == [a[0]] + a[1..][..k];
      assert b[..k + 1] == [b[0]] + b[1..][..k];
      assert a[k + 1] < b[k + 1];
    } else {
      assert a == [a[0]] + a[1..];
      assert b[..|a|] == [b[0]] + b[1..][..|a[1..]|];
    }
  }

  /** With equal first characters, order on the whole gives order on the tails. */
  lemma TailsOfLexLe(a: string, b: string)
    requires |a| > 0 && |b| > 0 && a[0] == b[0]
    requires LexLe(a, b)
    ensures LexLe(a[1..], b[1..])
  {
    if !(|a| <= |b| && a == b[..|a|]) {
      var k :| 0 <= k < |a| && k < |b| && a[..k] == b[..k] && a[k] < b[k];
      assert k != 0;
      assert a[1..][..k - 1] == a[..k][1..];
      assert b[1..][..k - 1] == b[..k][1..];
      assert a[1..][k - 1] < b[1..][k - 1];
    } else {
      assert a[1..] == b[1..][..|a[1..]|];
    }
  }

  lemma {:induction false} NameLeTotal(a: string, b: string)
    ensures NameLe(a, b) || NameLe(b, a)
    decreases |a|
  {
    if |a| > 0 && |b| > 0 && a[0] == b[0] {
      NameLeTotal(a[1..], b[1..]);
    }
  }

  lemma {:induction false} NameLeTransitive(a: string, b: string, c: string)
    requires NameLe(a, b) && NameLe(b, c)
    ensures NameLe(a, c)
    decreases |a|
  {
    if |a| > 0 && a[0] == b[0] && b[0] == c[0] {
      NameLeTransitive(a[1..], b[1..], c[1..]);
    }
  }

  lemma {:induction false} NameLeAntisymmetric(a: string, b: string)
    requires NameLe(a, b) && NameLe(b, a)
    ensures a == b
    decreases |a|
  {
    if |a| > 0 {
      NameLeAntisymmetric(a[1..], b[1..]);
      assert a == [a[0]] + a[1..];
      assert b == [b[0]] + b[1..];
    }
  }

  /** The listing is in ascending name order. */
  ghost predicate Sorted(s: seq<Entry>) {
    forall i, j :: 0 <= i < j < |s| ==> NameLe(s[i].name, s[j].name)
  }

  /** No two entries share a name, as in any real directory. */
  ghost predicate DistinctNames(s: seq<Entry>) {
    forall i, j :: 0 <= i < j < |s| ==> s[i].name != s[j].name
  }

  function Names(s: seq<Entry>): set<string> {
    set e | e in s :: e.name
  }

  /** Two listings holding the same entries hold the same names. */
  lemma NamesOfPermutation(r: seq<Entry>, s: seq<Entry>)
    requires multiset(r) == multiset(s)
    ensures Names(r) == Names(s)
  {
    forall e | e in r ensures e in s { assert e in multiset(r); }
    forall e | e in s ensures e in r { assert e in multiset(s); }
  }

  /** Places `x` into a sorted listing, ahead of every entry it does not
      follow, so that the sort below is stable like Python's `sorted`. */
  function Insert(x: Entry, s: seq<Entry>): (r: seq<Entry>)
    requires Sorted(s)
    ensures Sorted(r)
    ensures multiset(r) == multiset(s) + multiset{x}
  {
    if |s| == 0 then [x]
    else if NameLe(x.name, s[0].name) then
      BelowHeadBelowAll(x.name, s);
      PrependSorted(x, s);
      [x] + s
    else
      var rest := Insert(x, s[1..]);
      NameLeTotal(x.name, s[0].name);
      LowerBoundOfPermutation(s[0].name, s[1..], x, rest);
      PrependSorted(s[0], rest);
      assert s == [s[0]] + s[1..];
      [s[0]] + rest
  }

  lemma PrependSorted(x: Entry, s: seq<Entry>)
    requires Sorted(s)
    requires forall j :: 0 <= j < |s| ==> NameLe(x.name, s[j].name)
    ensures Sorted([x] + s)
  {
  }

  lemma BelowHeadBelowAll(lo: string, s: seq<Entry>)
    requires Sorted(s) && |s| > 0 && NameLe(lo, s[0].name)
    ensures forall j :: 0 <= j < |s| ==> NameLe(lo, s[j].name)
  {
    forall j | 0 < j < |s|
      ensures NameLe(lo, s[j].name)
    {
      NameLeTransitive(lo, s[0].name, s[j].name);
    }
  }

  /** A name below `x` and below every entry of `s` is below every entry of a
      rearrangement of `s` with `x` added. */
  lemma LowerBoundOfPermutation(lo: string, s: seq<Entry>, x: Entry, r: seq<Entry>)
    requires NameLe(lo, x.name)
    requires forall j :: 0 <= j < |s| ==> NameLe(lo, s[j].name)
    requires multiset(r) == multiset(s) + multiset{x}
    ensures forall j :: 0 <= j < |r| ==> NameLe(lo, r[j].name)
  {
    forall j | 0 <= j < |r|
      ensures NameLe(lo, r[j].name)
    {
      assert r[j] in multiset(r);
      if r[j] != x {
        assert r[j] in multiset(s);
        var k :| 0 <= k < |s| && s[k] == r[j];
      }
    }
  }

  /** `sorted(entries, key=lambda p: p.name)`. */
  function SortByName(s: seq<Entry>): (r: seq<Entry>)
    ensures Sorted(r)
    ensures multiset(r) == multiset(s)
  {
    if |s| == 0 then []
    else
      assert s == [s[0]] + s[1..];
      Insert(s[0], SortByName(s[1..]))
  }

  lemma PrependDistinct(x: Entry, s: seq<Entry>)
    requires DistinctNames(s) && x.name !in Names(s)
    ensures DistinctNames([x] + s)
  {
    forall j | 0 <= j < |s|
      ensures s[j].name != x.name
    {
      assert s[j] in s;
    }
  }

  /** The tail of a listing with distinct names has distinct names, none of
      them the head's. */
  lemma DistinctTail(s: seq<Entry>)
    requires |s| > 0 && DistinctNames(s)
    ensures DistinctNames(s[1..]) && s[0].name !in Names(s[1..])
  {
    forall e | e in s[1..]
      ensures e.name != s[0].name
    {
      var j :| 0 <= j < |s[1..]| && s[1..][j] == e;
      assert s[j + 1] == e;
    }
  }

  lemma InsertNames(x: Entry, s: seq<Entry>)
    requires Sorted(s)
    ensures Names(Insert(x, s)) == Names(s) + {x.name}
  {
    NamesOfPermutation(Insert(x, s), s + [x]);
    assert x in s + [x];
    forall e | e in s + [x] && e != x
      ensures e in s
    {
    }
  }

  lemma {:induction false} InsertKeepsDistinct(x: Entry, s: seq<Entry>)
    requires Sorted(s)
    requires DistinctNames(s) && x.name !in Names(s)
    ensures DistinctNames(Insert(x, s))
  {
    if |s| > 0 && !NameLe(x.name, s[0].name) {
      DistinctTail(s);
      assert Sorted(s[1..]);
      assert Names(s[1..]) <= Names(s);
      InsertKeepsDistinct(x, s[1..]);
      InsertNames(x, s[1..]);
      assert s[0] in s;
      PrependDistinct(s[0], Insert(x, s[1..]));
    } else if |s| > 0 {
      PrependDistinct(x, s);
    }
  }

  /** Sorting keeps the names. */
  lemma SortByNameNames(s: seq<Entry>)
    ensures Names(SortByName(s)) == Names(s)
  {
    NamesOfPermutation(SortByName(s), s);
  }

  /** Sorting keeps distinct names distinct. */
  lemma {:induction false} SortByNameDistinct(s: seq<Entry>)
    requires DistinctNames(s)
    ensures DistinctNames(SortByName(s))
  {
    if |s| > 0 {
      DistinctTail(s);
      SortByNameDistinct(s[1..]);
      SortByNameNames(s[1..]);
      InsertKeepsDistinct(s[0], SortByName(s[1..]));
    }
  }
}

=== FILE: pathnames.dfy ===
/** The two pieces of `pathlib` / `str` behaviour the planner uses on a file
    name: `str.startswith` and `PurePath.suffix`. A name here is a single path
    component (what `Path.name` returns). */
module PathNames {

  /** Python's `s.startswith(prefix)`; every string starts with "". */
  predicate StartsWith(s: string, prefix: string) {
    |prefix| <= |s| && s[..|prefix|] == prefix
  }

  /** Python's `s.rfind(c)` for a single character: the index of the last
      occurrence of `c`, or -1 when there is none. */
  function RFind(s: string, c: char): (i: int)
    ensures -1 <= i < |s|
    ensures 0 <= i ==> s[i] == c
    ensures forall j :: i < j < |s| ==> s[j] != c
  {
    if |s| == 0 then -1
    else if s[|s| - 1] == c then |s| - 1
    else RFind(s[..|s| - 1], c)
  }

  /** What `PurePath.suffix` can return: nothing, or a '.' followed by at least
      one character, none of them a '.'. */
  predicate IsExtension(ext: string) {
    ext == [] || (|ext| >= 2 && ext[0] == '.' && '.' !in ext[1..])
  }

  /** `PurePath.suffix`: the text from the last '.' of the name, or "" when the
      name has no '.', when its only '.' is the first character (".bashrc"), or
      when the last '.' is the final character ("notes."). The last case is the
      behaviour of Python up to 3.13; Python 3.14 returns "." there instead. */
  function Suffix(name: string): (ext: string)
    ensures IsExtension(ext)
    ensures |ext| <= |name| && ext == name[|name| - |ext|..]
    ensures ext != [] ==> |ext| < |name|
  {
    var i := RFind(name, '.');
    if 0 < i < |name| - 1 then name[i..] else []
  }

  /** Suffix is empty exactly in the three cases its documentation lists. */
  lemma SuffixEmptyIff(name: string)
    ensures Suffix(name) == [] <==>
              ('.' !in name
               || ('.' !in name[1..] && name[0] == '.')
               || name[|name| - 1] == '.')
  {
  }

  /** A name whose text after its last '.' is `ext` has exactly that suffix,
      provided something precedes the '.'. */
  lemma SuffixOfAppended(stem: string, ext: string)
    requires IsExtension(ext) && ext != []
    requires |stem| >= 1
    ensures Suffix(stem + ext) == ext
  {
    var name := stem + ext;
    assert name[|stem|] == '.';
    assert name[|stem| + 1..] == ext[1..];
  }
}

=== FILE: planner.dfy ===
/** The rename planner of `rename_files.py` (`plan_renames`): walk the listing
    in name order, skip what is not a regular file or already carries the
    prefix, and give every other file the first free name
    `prefix + str(counter) + suffix`, where "free" means absent from the folder
    as it was when planning began. */
module Planner {
  import opened Decimal
  import opened PathNames
  import opened Listing

  /** One planned rename. `source` and `target` are the `(old, new)` pair
      `plan_renames` emits; `index` is the counter value rendered into
      `target`, which the script does not store but which the target's name
      encodes. */
  datatype Rename = Rename(source: string, target: string, index: int)

  /** The candidate name `f"{prefix}{counter}{ext}"`. */
  function Candidate(prefix: string, counter: int, ext: string): string {
    prefix + IntToString(counter) + ext
  }

  /** An entry the planner renames: a regular file not already prefixed. */
  predicate Eligible(e: Entry, prefix: string) {
    e.isFile && !StartsWith(e.name, prefix)
  }

  function Sources(plan: seq<Rename>): set<string> {
    set r | r in plan :: r.source
  }

  function Targets(plan: seq<Rename>): set<string> {
    set r | r in plan :: r.target
  }

  /** Every candidate name carries the prefix. */
  lemma CandidateStartsWithPrefix(prefix: string, counter: int, ext: string)
    ensures StartsWith(Candidate(prefix, counter, ext), prefix)
  {
    assert Candidate(prefix, counter, ext)[..|prefix|] == prefix;
  }

  /** With the extension fixed, different counters give different candidates. */
  lemma CandidateInjectiveInCounter(prefix: string, ext: string, a: int, b: int)
    requires Candidate(prefix, a, ext) == Candidate(prefix, b, ext)
    ensures a == b
  {
    var sa, sb := IntToString(a), IntToString(b);
    var c := Candidate(prefix, a, ext);
    assert c[|prefix|..|prefix| + |sa|] == sa;
    assert c[|prefix|..|prefix| + |sb|] == sb;
    IntToStringInjective(a, b);
  }

  /** Candidates built from two extensions a suffix can take are equal only when
      their counters and extensions are: the rendering of the counter holds no
      '.', and an extension is empty or starts with one. */
  lemma CandidateInjective(prefix: string, a: int, ea: string, b: int, eb: string)
    requires IsExtension(ea) && IsExtension(eb)
    requires Candidate(prefix, a, ea) == Candidate(prefix, b, eb)
    ensures a == b && ea == eb
  {
    var sa, sb := IntToString(a), IntToString(b);
    var c := Candidate(prefix, a, ea);
    assert c == prefix + (sa + ea);
    assert c == prefix + (sb + eb);
    assert sa + ea == c[|prefix|..];
    assert sb + eb == c[|prefix|..];
    assert sa == (sa + ea)[..|sa|];
    assert sb == (sb + eb)[..|sb|];
    IntToStringInjective(a, b);
    assert ea == (sa + ea)[|sa|..];
    assert eb == (sb + eb)[|sb|..];
  }

  /** The names of the folder that the search loop can still run into when it
      starts at `from`: the decreasing measure of that loop. */
  ghost function Occupied(existing: set<string>, prefix: string, ext: string, from: int): set<string> {
    set n | n in existing && exists k :: from <= k && n == Candidate(prefix, k, ext)
  }

  lemma OccupiedShrinks(existing: set<string>, prefix: string, ext: string, from: int)
    requires Candidate(prefix, from, ext) in existing
    ensures |Occupied(existing, prefix, ext, from + 1)| < |Occupied(existing, prefix, ext, from)|
  {
    var c := Candidate(prefix, from, ext);
    forall k | from + 1 <= k
      ensures Candidate(prefix, k, ext) != c
    {
      if Candidate(prefix, k, ext) == c {
        CandidateInjectiveInCounter(prefix, ext, k, from);
      }
    }
    var big, small := Occupied(existing, prefix, ext, from), Occupied(existing, prefix, ext, from + 1);
    assert c in big;
    assert small <= big - {c};
    assert big - {c} == small + ((big - {c}) - small);
    assert |big - {c}| == |big| - 1;
  }

  /** Every counter from `from` up to (not including) `to` has its candidate
      in the folder. */
  ghost predicate AllTaken(existing: set<string>, prefix: string, ext: string, from: int, to: int) {
    forall j :: from <= j < to ==> Candidate(prefix, j, ext) in existing
  }

  /** The inner `while True` loop: the least counter at or above `counter`
      whose candidate is not in the folder. */
  function NextFree(existing: set<string>, prefix: string, ext: string, counter: int): (k: int)
    ensures counter <= k
    ensures Candidate(prefix, k, ext) !in existing
    ensures AllTaken(existing, prefix, ext, counter, k)
    decreases |Occupied(existing, prefix, ext, counter)|
  {
    if Candidate(prefix, counter, ext) !in existing then counter
    else
      OccupiedShrinks(existing, prefix, ext, counter);
      var k := NextFree(existing, prefix, ext, counter + 1);
      AllTakenExtend(existing, prefix, ext, counter, k);
      k
  }

  lemma AllTakenExtend(existing: set<string>, prefix: string, ext: string, from: int, to: int)
    requires Candidate(prefix, from, ext) in existing
    requires AllTaken(existing, prefix, ext, from + 1, to)
    ensures AllTaken(existing, prefix, ext, from, to)
  {
  }

  /** The entries the planner renames, in listing order. */
  function EligibleEntries(s: seq<Entry>, prefix: string): (r: seq<Entry>)
    ensures |r| <= |s|
    ensures forall e :: e in r <==> e in s && Eligible(e, prefix)
  {
    if |s| == 0 then []
    else
      assert s == [s[0]] + s[1..];
      if Eligible(s[0], prefix) then [s[0]] + EligibleEntries(s[1..], prefix)
      else EligibleEntries(s[1..], prefix)
  }

  /** Filtering keeps a sorted listing sorted: the eligible entries are a
      subsequence of the listing. */
  lemma {:induction false} EligibleEntriesKeepSorted(s: seq<Entry>, prefix: string)
    requires Sorted(s)
    ensures Sorted(EligibleEntries(s, prefix))
  {
    if |s| > 0 {
      assert Sorted(s[1..]);
      EligibleEntriesKeepSorted(s[1..], prefix);
      var rest := EligibleEntries(s[1..], prefix);
      if Eligible(s[0], prefix) {
        forall j | 0 <= j < |rest|
          ensures NameLe(s[0].name, rest[j].name)
        {
          assert rest[j] in s[1..];
        }
        PrependSorted(s[0], rest);
      }
    }
  }

  /** Filtering keeps distinct names distinct. */
  lemma {:induction false} EligibleEntriesKeepDistinct(s: seq<Entry>, prefix: string)
    requires DistinctNames(s)
    ensures DistinctNames(EligibleEntries(s, prefix))
  {
    if |s| > 0 {
      assert DistinctNames(s[1..]);
      EligibleEntriesKeepDistinct(s[1..], prefix);
      var rest := EligibleEntries(s[1..], prefix);
      if Eligible(s[0], prefix) {
        assert s[0].name !in Names(rest) by {
          forall e | e in rest
            ensures e.name != s[0].name
          {
            assert e in s[1..];
          }
        }
        PrependDistinct(s[0], rest);
      }
    }
  }

  /** Where the search for item `i` began: `start` for the first item, one past
      the previous item's counter after that. */
  function SearchStart(plan: seq<Rename>, i: int, start: int): int
    requires 0 <= i < |plan|
  {
    if i == 0 then start else plan[i - 1].index + 1
  }

  /** Item `i` of a plan whose counter began at `start` came out of the search
      loop as ChosenFrom describes. */
  ghost predicate ChosenAt(plan: seq<Rename>, i: int, existing: set<string>, prefix: string, start: int)
    requires 0 <= i < |plan|
  {
    ChosenFrom(plan[i], existing, prefix, SearchStart(plan, i, start))
  }

  /** What the search loop guarantees of one item when it starts at `from`:
      the target is the candidate for the item's counter and the source's
      suffix, it is not in the folder, and every counter the loop passed over
      on the way had its candidate in the folder. */
  ghost predicate ChosenFrom(r: Rename, existing: set<string>, prefix: string, from: int) {
    && r.target == Candidate(prefix, r.index, Suffix(r.source))
    && r.target !in existing
    && from <= r.index
    && AllTaken(existing, prefix, Suffix(r.source), from, r.index)
  }

  /** The body of `plan_renames` from a given entry on, with the counter as it
      stands there and `existing` the names in the folder. Its properties are
      proved in PlanFromSources and PlanFromChosen. */
  function PlanFrom(entries: seq<Entry>, existing: set<string>, prefix: string, counter: int): seq<Rename>
    decreases |entries|
  {
    if |entries| == 0 then []
    else
      if !Eligible(entries[0], prefix) then
        PlanFrom(entries[1..], existing, prefix, counter)
      else
        var item := Choose(entries[0].name, existing, prefix, counter);
        [item] + PlanFrom(entries[1..], existing, prefix, item.index + 1)
  }

  /** One turn of the outer loop for a file the planner renames: the file's
      suffix, the counter the search loop settles on, and the name it gives. */
  function Choose(name: string, existing: set<string>, prefix: string, counter: int): (r: Rename)
    ensures r.source == name
    ensures ChosenFrom(r, existing, prefix, counter)
  {
    var ext := Suffix(name);
    var k := NextFree(existing, prefix, ext, counter);
    Rename(name, Candidate(prefix, k, ext), k)
  }

  /** Item `i` of the plan renames entry `i` of `elig`. */
  ghost predicate SourcesMatch(plan: seq<Rename>, elig: seq<Entry>) {
    |plan| == |elig| && forall i :: 0 <= i < |plan| ==> plan[i].source == elig[i].name
  }

  /** PlanFrom renames the eligible entries, in order. */
  lemma {:induction false} PlanFromSources(entries: seq<Entry>, existing: set<string>, prefix: string, counter: int)
    ensures SourcesMatch(PlanFrom(entries, existing, prefix, counter), EligibleEntries(entries, prefix))
    decreases |entries|
  {
    if |entries| > 0 {
      if Eligible(entries[0], prefix) {
        var next := Choose(entries[0].name, existing, prefix, counter).index + 1;
        PlanFromSources(entries[1..], existing, prefix, next);
        SourcesTake(entries, existing, prefix, counter, next);
      } else {
        PlanFromSkip(entries, existing, prefix, counter);
        PlanFromSources(entries[1..], existing, prefix, counter);
      }
    }
  }

  lemma SourcesTake(entries: seq<Entry>, existing: set<string>, prefix: string, counter: int, next: int)
    requires |entries| > 0 && Eligible(entries[0], prefix)
    requires next == Choose(entries[0].name, existing, prefix, counter).index + 1
    requires SourcesMatch(PlanFrom(entries[1..], existing, prefix, next), EligibleEntries(entries[1..], prefix))
    ensures SourcesMatch(PlanFrom(entries, existing, prefix, counter), EligibleEntries(entries, prefix))
  {
    PlanFromTakeParts(entries, existing, prefix, counter, next);
    EligibleTake(entries, prefix);
    SourcesCons(PlanFrom(entries, existing, prefix, counter), EligibleEntries(entries, prefix));
  }

  /** Matching heads and matching tails make matching sequences. */
  lemma SourcesCons(plan: seq<Rename>, elig: seq<Entry>)
    requires |plan| > 0 && |elig| > 0 && plan[0].source == elig[0].name
    requires SourcesMatch(plan[1..], elig[1..])
    ensures SourcesMatch(plan, elig)
  {
    forall i | 1 <= i < |plan|
      ensures plan[i].source == elig[i].name
    {
      assert plan[i] == plan[1..][i - 1];
      assert elig[i] == elig[1..][i - 1];
    }
  }

  lemma EligibleTake(s: seq<Entry>, prefix: string)
    requires |s| > 0 && Eligible(s[0], prefix)
    ensures |EligibleEntries(s, prefix)| > 0
    ensures EligibleEntries(s, prefix)[0] == s[0]
    ensures EligibleEntries(s, prefix)[1..] == EligibleEntries(s[1..], prefix)
  {
    assert ([s[0]] + EligibleEntries(s[1..], prefix))[1..] == EligibleEntries(s[1..], prefix);
  }

  /** Each item of a plan is what the search loop settles on when it starts
      where the previous item's counter left off (at `from` for the first). */
  ghost predicate AllChosen(plan: seq<Rename>, existing: set<string>, prefix: string, from: int) {
    forall i :: 0 <= i < |plan| ==> ChosenAt(plan, i, existing, prefix, from)
  }

  /** Each item of PlanFrom is the name the search loop settles on. */
  lemma {:induction false} PlanFromChosen(entries: seq<Entry>, existing: set<string>, prefix: string, counter: int)
    ensures AllChosen(PlanFrom(entries, existing, prefix, counter), existing, prefix, counter)
    decreases |entries|
  {
    if |entries| > 0 {
      if Eligible(entries[0], prefix) {
        var next := Choose(entries[0].name, existing, prefix, counter).index + 1;
        PlanFromChosen(entries[1..], existing, prefix, next);
        ChosenTake(entries, existing, prefix, counter, next);
      } else {
        PlanFromChosen(entries[1..], existing, prefix, counter);
        PlanFromSkip(entries, existing, prefix, counter);
      }
    }
  }

  lemma ChosenTake(entries: seq<Entry>, existing: set<string>, prefix: string, counter: int, next: int)
    requires |entries| > 0 && Eligible(entries[0], prefix)
    requires next == Choose(entries[0].name, existing, prefix, counter).index + 1
    requires AllChosen(PlanFrom(entries[1..], existing, prefix, next), existing, prefix, next)
    ensures AllChosen(PlanFrom(entries, existing, prefix, counter), existing, prefix, counter)
  {
    PlanFromTakeParts(entries, existing, prefix, counter, next);
    AllChosenCons(PlanFrom(entries, existing, prefix, counter), existing, prefix, counter, next);
  }

  /** A plan whose head and tail are chosen by the search loop is chosen
      by it throughout. */
  lemma AllChosenCons(plan: seq<Rename>, existing: set<string>, prefix: string, from: int, next: int)
    requires |plan| > 0 && ChosenFrom(plan[0], existing, prefix, from)
    requires next == plan[0].index + 1 && AllChosen(plan[1..], existing, prefix, next)
    ensures AllChosen(plan, existing, prefix, from)
  {
    forall i | 0 < i < |plan|
      ensures ChosenAt(plan, i, existing, prefix, from)
    {
      ChosenAtShift(plan, existing, prefix, from, i);
      assert ChosenAt(plan[1..], i - 1, existing, prefix, plan[0].index + 1);
    }
  }

  /** The converse: the head and the tail of a chosen plan are chosen. */
  lemma AllChosenHead(plan: seq<Rename>, existing: set<string>, prefix: string, from: int)
    requires |plan| > 0 && AllChosen(plan, existing, prefix, from)
    ensures ChosenFrom(plan[0], existing, prefix, from)
    ensures AllChosen(plan[1..], existing, prefix, plan[0].index + 1)
  {
    assert ChosenAt(plan, 0, existing, prefix, from);
    AllChosenTail(plan, existing, prefix, from);
  }

  lemma AllChosenTail(plan: seq<Rename>, existing: set<string>, prefix: string, from: int)
    requires |plan| > 0 && AllChosen(plan, existing, prefix, from)
    ensures AllChosen(plan[1..], existing, prefix, plan[0].index + 1)
  {
    var tail, next := plan[1..], plan[0].index + 1;
    forall i | 0 <= i < |tail|
      ensures ChosenAt(tail, i, existing, prefix, next)
    {
      ChosenAtShift(plan, existing, prefix, from, i + 1);
      assert ChosenAt(plan, i + 1, existing, prefix, from);
    }
  }

  /** Position `i` of a plan is position `i - 1` of its tail, whose search
      starts one past the head's counter. */
  lemma ChosenAtShift(plan: seq<Rename>, existing: set<string>, prefix: string, from: int, i: int)
    requires 0 < i < |plan|
    ensures ChosenAt(plan[1..], i - 1, existing, prefix, plan[0].index + 1) == ChosenAt(plan, i, existing, prefix, from)
  {
    assert plan[1..][i - 1] == plan[i];
    assert SearchStart(plan[1..], i - 1, plan[0].index + 1) == SearchStart(plan, i, from);
  }

  /** One step of PlanFrom at an entry it renames. */
  lemma PlanFromTake(entries: seq<Entry>, existing: set<string>, prefix: string, counter: int)
    requires |entries| > 0 && Eligible(entries[0], prefix)
    ensures PlanFrom(entries, existing, prefix, counter)
              == [Choose(entries[0].name, existing, prefix, counter)]
                 + PlanFrom(entries[1..], existing, prefix, Choose(entries[0].name, existing, prefix, counter).index + 1)
  {
  }

  lemma PlanFromTakeParts(entries: seq<Entry>, existing: set<string>, prefix: string, counter: int, next: int)
    requires |entries| > 0 && Eligible(entries[0], prefix)
    requires next == Choose(entries[0].name, existing, prefix, counter).index + 1
    ensures |PlanFrom(entries, existing, prefix, counter)| > 0
    ensures PlanFrom(entries, existing, prefix, counter)[0] == Choose(entries[0].name, existing, prefix, counter)
    ensures PlanFrom(entries, existing, prefix, counter)[1..] == PlanFrom(entries[1..], existing, prefix, next)
  {
    var item := Choose(entries[0].name, existing, prefix, counter);
    var rest := PlanFrom(entries[1..], existing, prefix, item.index + 1);
    PlanFromTake(entries, existing, prefix, counter);
    assert ([item] + rest)[1..] == rest;
  }

  /** One step of PlanFrom at an entry it leaves alone. */
  lemma PlanFromSkip(entries: seq<Entry>, existing: set<string>, prefix: string, counter: int)
    requires |entries| > 0 && !Eligible(entries[0], prefix)
    ensures PlanFrom(entries, existing, prefix, counter) == PlanFrom(entries[1..], existing, prefix, counter)
  {
  }

  /** `plan_renames(folder, prefix, start)` for a folder whose listing is
      `listing`: the listing is sorted by name, and a candidate "exists" when it
      is one of the listed names. */
  function Plan(listing: seq<Entry>, prefix: string, start: int): (plan: seq<Rename>)
    ensures |plan| <= |listing|
    ensures forall i :: 0 <= i < |plan| ==> plan[i].target !in Names(listing)
    ensures forall i :: 0 <= i < |plan| ==>
              plan[i].target == Candidate(prefix, plan[i].index, Suffix(plan[i].source))
  {
    var sorted := SortByName(listing);
    var plan := PlanFrom(sorted, Names(listing), prefix, start);
    assert |plan| <= |listing| by {
      PlanFromSources(sorted, Names(listing), prefix, start);
      assert |multiset(sorted)| == |multiset(listing)|;
    }
    PlanFromChosen(sorted, Names(listing), prefix, start);
    forall i | 0 <= i < |plan|
      ensures ChosenFrom(plan[i], Names(listing), prefix, SearchStart(plan, i, start))
    {
      assert ChosenAt(plan, i, Names(listing), prefix, start);
    }
    plan
  }

  /** The `while True` search loop as `plan_renames` writes it: bump the counter
      while the candidate exists. */
  method SearchFree(existing: set<string>, prefix: string, ext: string, start: int) returns (counter: int)
    ensures counter == NextFree(existing, prefix, ext, start)
  {
    counter := start;
    while Candidate(prefix, counter, ext) in existing
      invariant NextFree(existing, prefix, ext, counter) == NextFree(existing, prefix, ext, start)
      decreases |Occupied(existing, prefix, ext, counter)|
    {
      OccupiedShrinks(existing, prefix, ext, counter);
      counter := counter + 1;
    }
  }

  /** `plan_renames` as the script writes it: one pass over the sorted
      listing with a running counter and the search loop above. It computes
      exactly the plan of the recursive definition. */
  method PlanRenames(listing: seq<Entry>, prefix: string, start: int) returns (plan: seq<Rename>)
    ensures plan == Plan(listing, prefix, start)
  {
    var entries := SortByName(listing);
    var existing := Names(listing);
    ghost var whole := PlanFrom(entries, existing, prefix, start);
    plan := [];
    var counter := start;
    var rest := entries;
    while |rest| > 0
      invariant plan + PlanFrom(rest, existing, prefix, counter) == whole
    {
      var p := rest[0];
      if p.isFile && !StartsWith(p.name, prefix) {
        var item := NameFor(p.name, existing, prefix, counter);
        ChosenIsChoose(item, existing, prefix, counter);
        LoopTake(rest, existing, prefix, counter, plan, whole);
        plan := plan + [item];
        counter := item.index + 1;
      } else {
        PlanFromSkip(rest, existing, prefix, counter);
      }
      rest := rest[1..];
    }
  }

  /** A turn of the loop of PlanRenames at a file it renames keeps the loop's
      invariant. */
  lemma LoopTake(rest: seq<Entry>, existing: set<string>, prefix: string, counter: int,
                 plan: seq<Rename>, whole: seq<Rename>)
    requires |rest| > 0 && Eligible(rest[0], prefix)
    requires plan + PlanFrom(rest, existing, prefix, counter) == whole
    ensures (plan + [Choose(rest[0].name, existing, prefix, counter)])
              + PlanFrom(rest[1..], existing, prefix, Choose(rest[0].name, existing, prefix, counter).index + 1) == whole
  {
    var item := Choose(rest[0].name, existing, prefix, counter);
    PlanFromTake(rest, existing, prefix, counter);
    AppendAssociates(plan, item, PlanFrom(rest[1..], existing, prefix, item.index + 1));
  }

  /** The body of the outer loop for a file it renames, as `plan_renames`
      writes it: take the suffix, run the search loop, build the target. */
  method NameFor(name: string, existing: set<string>, prefix: string, counter: int) returns (item: Rename)
    ensures item.source == name
    ensures ChosenFrom(item, existing, prefix, counter)
  {
    var ext := Suffix(name);
    var k := SearchFree(existing, prefix, ext, counter);
    item := Rename(name, Candidate(prefix, k, ext), k);
  }

  lemma AppendAssociates(plan: seq<Rename>, item: Rename, rest: seq<Rename>)
    ensures plan + ([item] + rest) == (plan + [item]) + rest
  {
  }

  lemma PlanUnfold(listing: seq<Entry>, prefix: string, start: int)
    ensures Plan(listing, prefix, start) == PlanFrom(SortByName(listing), Names(listing), prefix, start)
  {
  }

  /** The plan renames the eligible entries of the sorted listing, one item
      each and in that order. */
  lemma PlanRenamesEligibleInOrder(listing: seq<Entry>, prefix: string, start: int)
    ensures SourcesMatch(Plan(listing, prefix, start), EligibleEntries(SortByName(listing), prefix))
  {
    PlanFromSources(SortByName(listing), Names(listing), prefix, start);
  }

  /** The counter chosen for each item is the least one, at or above where the
      search for it began, whose candidate is not in the folder. */
  lemma PlanCounterIsLeastFree(listing: seq<Entry>, prefix: string, start: int)
    ensures forall i :: 0 <= i < |Plan(listing, prefix, start)| ==>
              ChosenAt(Plan(listing, prefix, start), i, Names(listing), prefix, start)
  {
    PlanFromChosen(SortByName(listing), Names(listing), prefix, start);
  }

  /** The search loop's result is the only counter with its properties: the
      least one at or after `from` whose candidate is free. */
  lemma LeastFreeIsNextFree(existing: set<string>, prefix: string, ext: string, from: int, k: int)
    requires from <= k && Candidate(prefix, k, ext) !in existing
    requires AllTaken(existing, prefix, ext, from, k)
    ensures k == NextFree(existing, prefix, ext, from)
  {
    var n := NextFree(existing, prefix, ext, from);
    assert AllTaken(existing, prefix, ext, from, n);
  }

  /** An item that satisfies what the search loop guarantees is the item the
      loop produces. */
  lemma ChosenIsChoose(r: Rename, existing: set<string>, prefix: string, from: int)
    requires ChosenFrom(r, existing, prefix, from)
    ensures r == Choose(r.source, existing, prefix, from)
  {
    LeastFreeIsNextFree(existing, prefix, Suffix(r.source), from, r.index);
  }

  lemma EligibleSkip(s: seq<Entry>, prefix: string)
    requires |s| > 0 && !Eligible(s[0], prefix)
    ensures EligibleEntries(s, prefix) == EligibleEntries(s[1..], prefix)
  {
  }

  lemma SourcesTail(plan: seq<Rename>, elig: seq<Entry>)
    requires |plan| > 0 && SourcesMatch(plan, elig)
    ensures plan[0].source == elig[0].name && SourcesMatch(plan[1..], elig[1..])
  {
    forall i | 0 <= i < |plan| - 1
      ensures plan[1..][i].source == elig[1..][i].name
    {
      assert plan[1..][i] == plan[i + 1] && elig[1..][i] == elig[i + 1];
    }
  }

  /** PlanFrom is the only plan that renames the eligible entries in order
      with each item chosen by the search loop. */
  lemma {:induction false} PlanFromUnique(entries: seq<Entry>, existing: set<string>, prefix: string, counter: int,
                                          plan: seq<Rename>)
    requires SourcesMatch(plan, EligibleEntries(entries, prefix))
    requires AllChosen(plan, existing, prefix, counter)
    ensures plan == PlanFrom(entries, existing, prefix, counter)
    decreases |entries|
  {
    if |entries| > 0 {
      if Eligible(entries[0], prefix) {
        EligibleTake(entries, prefix);
        SourcesTail(plan, EligibleEntries(entries, prefix));
        AllChosenHead(plan, existing, prefix, counter);
        ChosenIsChoose(plan[0], existing, prefix, counter);
        PlanFromUnique(entries[1..], existing, prefix, plan[0].index + 1, plan[1..]);
        UniqueTake(entries, existing, prefix, counter, plan);
      } else {
        EligibleSkip(entries, prefix);
        PlanFromSkip(entries, existing, prefix, counter);
        PlanFromUnique(entries[1..], existing, prefix, counter, plan);
      }
    }
  }

  lemma UniqueTake(entries: seq<Entry>, existing: set<string>, prefix: string, counter: int, plan: seq<Rename>)
    requires |entries| > 0 && Eligible(entries[0], prefix) && |plan| > 0
    requires plan[0] == Choose(entries[0].name, existing, prefix, counter)
    requires plan[1..] == PlanFrom(entries[1..], existing, prefix, plan[0].index + 1)
    ensures plan == PlanFrom(entries, existing, prefix, counter)
  {
    PlanFromTakeParts(entries, existing, prefix, counter, plan[0].index + 1);
    SameHeadSameTail(plan, PlanFrom(entries, existing, prefix, counter));
  }

  lemma SameHeadSameTail(a: seq<Rename>, b: seq<Rename>)
    requires |a| > 0 && |b| > 0 && a[0] == b[0] && a[1..] == b[1..]
    ensures a == b
  {
    assert a == [a[0]] + a[1..];
    assert b == [b[0]] + b[1..];
  }

  /** What `plan_renames` returns, characterised without running it: the one
      list that renames the regular, unprefixed files in name order, one item
      each, where every item takes the least free counter at or after the
      point its search began. */
  lemma PlanCharacterized(listing: seq<Entry>, prefix: string, start: int, plan: seq<Rename>)
    ensures plan == Plan(listing, prefix, start)
        <==> && SourcesMatch(plan, EligibleEntries(SortByName(listing), prefix))
             && forall i :: 0 <= i < |plan| ==> ChosenAt(plan, i, Names(listing), prefix, start)
  {
    if plan == Plan(listing, prefix, start) {
      PlanRenamesEligibleInOrder(listing, prefix, start);
      PlanCounterIsLeastFree(listing, prefix, start);
    } else if SourcesMatch(plan, EligibleEntries(SortByName(listing), prefix))
              && forall i :: 0 <= i < |plan| ==> ChosenAt(plan, i, Names(listing), prefix, start) {
      PlanFromUnique(SortByName(listing), Names(listing), prefix, start, plan);
    }
  }

  // Properties of a plan, named so that the lemmas below can state them.

  /** Every source is a regular file of the listing that lacks the prefix. */
  ghost predicate SourcesEligible(plan: seq<Rename>, listing: seq<Entry>, prefix: string) {
    forall i :: 0 <= i < |plan| ==> Entry(plan[i].source, true) in listing && !StartsWith(plan[i].source, prefix)
  }

  ghost predicate SourcesAscending(plan: seq<Rename>) {
    forall i, j :: 0 <= i < j < |plan| ==> NameLe(plan[i].source, plan[j].source)
  }

  ghost predicate DistinctSources(plan: seq<Rename>) {
    forall i, j :: 0 <= i < j < |plan| ==> plan[i].source != plan[j].source
  }

  ghost predicate DistinctTargets(plan: seq<Rename>) {
    forall i, j :: 0 <= i < j < |plan| ==> plan[i].target != plan[j].target
  }

  /** Counters are at least `start` and strictly increase along the plan. */
  ghost predicate CountersAscending(plan: seq<Rename>, start: int) {
    && (forall i :: 0 <= i < |plan| ==> start <= plan[i].index)
    && (forall i, j :: 0 <= i < j < |plan| ==> plan[i].index < plan[j].index)
  }

  /** Counters are exactly start, start + 1, start + 2, ... */
  ghost predicate CountersContiguous(plan: seq<Rename>, start: int) {
    forall i :: 0 <= i < |plan| ==> plan[i].index == start + i
  }

  /** A source with a suffix has a target with the same suffix. */
  ghost predicate KeepsExtensions(plan: seq<Rename>) {
    forall i :: 0 <= i < |plan| && Suffix(plan[i].source) != [] ==> Suffix(plan[i].target) == Suffix(plan[i].source)
  }

  /** Counters along a searched plan strictly increase and never fall below
      the starting value. */
  lemma {:induction false} CountersIncrease(plan: seq<Rename>, start: int, i: int, j: int)
    requires forall k :: 0 <= k < |plan| ==> SearchStart(plan, k, start) <= plan[k].index
    requires 0 <= i <= j < |plan|
    ensures start <= plan[j].index
    ensures i < j ==> plan[i].index < plan[j].index
    decreases j
  {
    assert SearchStart(plan, j, start) <= plan[j].index;
    if j > 0 {
      CountersIncrease(plan, start, if i < j then i else j - 1, j - 1);
    }
  }

  /** Plan sources are regular files of the listing without the prefix, and
      every such file is a source. An empty prefix therefore plans nothing. */
  lemma PlanSources(listing: seq<Entry>, prefix: string, start: int)
    ensures SourcesEligible(Plan(listing, prefix, start), listing, prefix)
    ensures forall e :: e in listing && Eligible(e, prefix) ==> e.name in Sources(Plan(listing, prefix, start))
  {
    var plan := Plan(listing, prefix, start);
    var sorted := SortByName(listing);
    var elig := EligibleEntries(sorted, prefix);
    PlanRenamesEligibleInOrder(listing, prefix, start);
    forall i | 0 <= i < |plan|
      ensures Entry(plan[i].source, true) in listing && !StartsWith(plan[i].source, prefix)
    {
      assert elig[i] in elig;
      assert elig[i] in multiset(sorted);
      assert elig[i] == Entry(plan[i].source, true);
    }
    forall e | e in listing && Eligible(e, prefix)
      ensures e.name in Sources(plan)
    {
      assert e in multiset(listing);
      assert e in elig;
      var i :| 0 <= i < |elig| && elig[i] == e;
      assert plan[i] in plan;
    }
  }

  /** The plan is empty exactly when no entry of the listing is eligible. */
  lemma PlanEmptyIff(listing: seq<Entry>, prefix: string, start: int)
    ensures Plan(listing, prefix, start) == [] <==> forall e :: e in listing ==> !Eligible(e, prefix)
  {
    var sorted := SortByName(listing);
    var elig := EligibleEntries(sorted, prefix);
    PlanRenamesEligibleInOrder(listing, prefix, start);
    PlanSources(listing, prefix, start);
    if elig != [] {
      assert elig[0] in elig;
      assert elig[0] in multiset(sorted);
    }
  }

  /** With an empty prefix every name is "already renamed". */
  lemma EmptyPrefixPlansNothing(listing: seq<Entry>, start: int)
    ensures Plan(listing, "", start) == []
  {
    PlanEmptyIff(listing, "", start);
  }

  /** Sources come in ascending name order, and are distinct when the names of
      the listing are. */
  lemma PlanInNameOrder(listing: seq<Entry>, prefix: string, start: int)
    ensures SourcesAscending(Plan(listing, prefix, start))
    ensures DistinctNames(listing) ==> DistinctSources(Plan(listing, prefix, start))
  {
    PlanRenamesEligibleInOrder(listing, prefix, start);
    EligibleEntriesKeepSorted(SortByName(listing), prefix);
    if DistinctNames(listing) {
      SortByNameDistinct(listing);
      EligibleEntriesKeepDistinct(SortByName(listing), prefix);
    }
  }

  /** Each counter is at least `start` and larger than every earlier one. */
  lemma PlanCountersIncrease(listing: seq<Entry>, prefix: string, start: int)
    ensures CountersAscending(Plan(listing, prefix, start), start)
  {
    var plan := Plan(listing, prefix, start);
    PlanCounterIsLeastFree(listing, prefix, start);
    forall k | 0 <= k < |plan|
      ensures SearchStart(plan, k, start) <= plan[k].index
    {
      assert ChosenAt(plan, k, Names(listing), prefix, start);
    }
    forall i, j | 0 <= i <= j < |plan|
      ensures start <= plan[j].index && (i < j ==> plan[i].index < plan[j].index)
    {
      CountersIncrease(plan, start, i, j);
    }
  }

  /** Item `i`'s first try, the candidate for counter `start + i` and the
      item's suffix, is free in the folder. */
  ghost predicate FirstTriesFree(plan: seq<Rename>, existing: set<string>, prefix: string, start: int) {
    forall i :: 0 <= i < |plan| ==> Candidate(prefix, start + i, Suffix(plan[i].source)) !in existing
  }

  /** The counters are exactly start, start + 1, start + 2, ... if and only if
      every item's first try is free: numbering skips a value exactly when
      some search met a taken candidate. */
  lemma PlanContiguousIff(listing: seq<Entry>, prefix: string, start: int)
    ensures CountersContiguous(Plan(listing, prefix, start), start)
        <==> FirstTriesFree(Plan(listing, prefix, start), Names(listing), prefix, start)
  {
    var plan := Plan(listing, prefix, start);
    var existing := Names(listing);
    PlanCounterIsLeastFree(listing, prefix, start);
    if CountersContiguous(plan, start) {
      forall i | 0 <= i < |plan|
        ensures Candidate(prefix, start + i, Suffix(plan[i].source)) !in existing
      {
        assert ChosenAt(plan, i, existing, prefix, start);
      }
    }
    if FirstTriesFree(plan, existing, prefix, start) {
      forall i | 0 <= i < |plan|
        ensures plan[i].index == start + i
      {
        CounterWhenFirstTriesFree(plan, existing, prefix, start, i);
      }
    }
  }

  /** Along a plan of search results whose first tries are free, each search
      stops where it starts, so item `i` has counter `start + i`. */
  lemma {:induction false} CounterWhenFirstTriesFree(plan: seq<Rename>, existing: set<string>, prefix: string,
                                                     start: int, i: int)
    requires 0 <= i < |plan|
    requires AllChosen(plan, existing, prefix, start)
    requires FirstTriesFree(plan, existing, prefix, start)
    ensures plan[i].index == start + i
    decreases i
  {
    if i > 0 {
      CounterWhenFirstTriesFree(plan, existing, prefix, start, i - 1);
    }
    FirstTryTaken(plan, existing, prefix, start, i);
  }

  /** Item `i` stops at its first try when the item before it has counter
      `start + i - 1`. */
  lemma FirstTryTaken(plan: seq<Rename>, existing: set<string>, prefix: string, start: int, i: int)
    requires 0 <= i < |plan|
    requires AllChosen(plan, existing, prefix, start)
    requires FirstTriesFree(plan, existing, prefix, start)
    requires i > 0 ==> plan[i - 1].index == start + i - 1
    ensures plan[i].index == start + i
  {
    var from := start + i;
    assert SearchStart(plan, i, start) == from;
    assert ChosenFrom(plan[i], existing, prefix, from) by {
      assert ChosenAt(plan, i, existing, prefix, start);
    }
    assert Candidate(prefix, from, Suffix(plan[i].source)) !in existing;
    StopsAtFreeStart(plan[i], existing, prefix, from);
  }

  /** A search whose first try is free stops there. */
  lemma StopsAtFreeStart(r: Rename, existing: set<string>, prefix: string, from: int)
    requires ChosenFrom(r, existing, prefix, from)
    requires Candidate(prefix, from, Suffix(r.source)) !in existing
    ensures r.index == from
  {
  }

  /** When no candidate of any counter and extension is in the folder there are
      no collisions, and the counters are exactly start, start + 1, ... */
  lemma PlanContiguous(listing: seq<Entry>, prefix: string, start: int)
    requires forall k: int, e: string :: IsExtension(e) ==> Candidate(prefix, k, e) !in Names(listing)
    ensures CountersContiguous(Plan(listing, prefix, start), start)
  {
    var plan := Plan(listing, prefix, start);
    forall i | 0 <= i < |plan|
      ensures Candidate(prefix, start + i, Suffix(plan[i].source)) !in Names(listing)
    {
      assert IsExtension(Suffix(plan[i].source));
    }
    PlanContiguousIff(listing, prefix, start);
  }

  /** No two items share a target, although the search consults only the
      folder and never the targets chosen before: counters strictly increase,
      and distinct counters render distinct names. */
  lemma PlanTargetsDistinct(listing: seq<Entry>, prefix: string, start: int)
    ensures DistinctTargets(Plan(listing, prefix, start))
  {
    var plan := Plan(listing, prefix, start);
    PlanCountersIncrease(listing, prefix, start);
    forall i, j | 0 <= i < j < |plan|
      ensures plan[i].target != plan[j].target
    {
      if plan[i].target == plan[j].target {
        CandidateInjective(prefix, plan[i].index, Suffix(plan[i].source), plan[j].index, Suffix(plan[j].source));
      }
    }
  }

  /** A source with an extension keeps it: `PurePath.suffix` of the target is
      the source's suffix. */
  lemma PlanKeepsExtension(listing: seq<Entry>, prefix: string, start: int)
    ensures KeepsExtensions(Plan(listing, prefix, start))
  {
    var plan := Plan(listing, prefix, start);
    forall i | 0 <= i < |plan| && Suffix(plan[i].source) != []
      ensures Suffix(plan[i].target) == Suffix(plan[i].source)
    {
      var ext := Suffix(plan[i].source);
      var stem := prefix + IntToString(plan[i].index);
      assert plan[i].target == stem + ext;
      SuffixOfAppended(stem, ext);
    }
  }

  /** Every target carries the prefix. */
  lemma TargetsPrefixed(listing: seq<Entry>, prefix: string, start: int)
    ensures forall t :: t in Targets(Plan(listing, prefix, start)) ==> StartsWith(t, prefix)
  {
    CandidateTargetsPrefixed(Plan(listing, prefix, start), prefix);
  }

  lemma CandidateTargetsPrefixed(plan: seq<Rename>, prefix: string)
    requires forall i :: 0 <= i < |plan| ==> plan[i].target == Candidate(prefix, plan[i].index, Suffix(plan[i].source))
    ensures forall t :: t in Targets(plan) ==> StartsWith(t, prefix)
  {
    forall t | t in Targets(plan)
      ensures StartsWith(t, prefix)
    {
      var r :| r in plan && r.target == t;
      var i :| 0 <= i < |plan| && plan[i] == r;
      CandidateStartsWithPrefix(prefix, r.index, Suffix(r.source));
    }
  }

  /** Re-running the planner after the plan was carried out plans nothing:
      every regular file of the new listing is either one the plan left alone
      (so it already carried the prefix) or a target (which carries it). */
  lemma ReplanIsEmpty(listing: seq<Entry>, prefix: string, start: int, after: seq<Entry>, restart: int)
    requires forall e :: e in after && e.isFile ==>
               || (e in listing && e.name !in Sources(Plan(listing, prefix, start)))
               || e.name in Targets(Plan(listing, prefix, start))
    ensures Plan(after, prefix, restart) == []
  {
    PlanSources(listing, prefix, start);
    TargetsPrefixed(listing, prefix, start);
    PlanEmptyIff(after, prefix, restart);
  }
}

=== FILE: scenarios.dfy ===
/** Worked examples of the planner and the apply loop on small folders. */
module Scenarios {
  import opened Decimal
  import opened PathNames
  import opened Listing
  import opened Planner
  import opened Executor

  // Facts about the names of the examples, each in a context of its own.

  lemma NotPrefixed()
    ensures !StartsWith("a.txt", "file_")
    ensures !StartsWith("b.txt", "file_")
    ensures !StartsWith("report.pdf", "file_")
  {
    assert "a.txt"[..5][0] == 'a';
    assert "b.txt"[..5][0] == 'b';
    assert "report.pdf"[..5][0] == 'r';
  }

  lemma Suffixes()
    ensures Suffix("a.txt") == ".txt" && Suffix("b.txt") == ".txt" && Suffix("report.pdf") == ".pdf"
  {
    assert "a.txt" == "a" + ".txt";
    SuffixOfAppended("a", ".txt");
    assert "b.txt" == "b" + ".txt";
    SuffixOfAppended("b", ".txt");
    assert "report.pdf" == "report" + ".pdf";
    SuffixOfAppended("report", ".pdf");
  }

  /** Regular files of the examples. */
  const A := Entry("a.txt", true)
  const B := Entry("b.txt", true)
  const R := Entry("report.pdf", true)
  const F1 := Entry("file_1.txt", true)

  lemma SortOne(x: Entry)
    ensures SortByName([x]) == [x]
  {
    assert [x][1..] == [];
  }

  lemma SortAR()
    ensures SortByName([A, R]) == [A, R]
  {
    SortOne(R);
    assert [A, R][1..] == [R];
    assert NameLe(A.name, R.name);
  }

  lemma InsertBR()
    ensures Insert(B, [R]) == [B, R]
  {
    assert NameLe(B.name, R.name);
  }

  lemma SortThree()
    ensures SortByName([B, A, R]) == [A, B, R]
  {
    SortAR();
    InsertBR();
    assert [B, A, R][1..] == [A, R];
    assert [A, R][1..] == [R];
    assert !NameLe(B.name, A.name);
  }

  lemma ThreeNames()
    ensures Names([B, A, R]) == {"a.txt", "b.txt", "report.pdf"}
  {
    assert B in [B, A, R] && A in [B, A, R] && R in [B, A, R];
  }

  lemma Candidates()
    ensures Candidate("file_", 1, ".txt") == "file_1.txt"
    ensures Candidate("file_", 2, ".txt") == "file_2.txt"
    ensures Candidate("file_", 3, ".pdf") == "file_3.pdf"
  {
  }

  /** The search stops at once when the first candidate is free. */
  lemma ChooseFree(name: string, existing: set<string>, prefix: string, counter: int, target: string)
    requires Candidate(prefix, counter, Suffix(name)) == target && target !in existing
    ensures Choose(name, existing, prefix, counter) == Rename(name, target, counter)
  {
  }

  /** The search steps over one taken candidate. */
  lemma ChooseSecond(name: string, existing: set<string>, prefix: string, counter: int, target: string)
    requires Candidate(prefix, counter, Suffix(name)) in existing
    requires Candidate(prefix, counter + 1, Suffix(name)) == target && target !in existing
    ensures Choose(name, existing, prefix, counter) == Rename(name, target, counter + 1)
  {
    assert NextFree(existing, prefix, Suffix(name), counter + 1) == counter + 1;
  }

  ghost predicate ThreeFolder(names: set<string>) {
    names == {"a.txt", "b.txt", "report.pdf"}
  }

  lemma ThreeStepA(names: set<string>)
    requires ThreeFolder(names)
    ensures PlanFrom([A, B, R], names, "file_", 1)
         == [Rename("a.txt", "file_1.txt", 1)] + PlanFrom([B, R], names, "file_", 2)
  {
    NotPrefixed();
    Suffixes();
    Candidates();
    ChooseFree("a.txt", names, "file_", 1, "file_1.txt");
    PlanFromTake([A, B, R], names, "file_", 1);
    assert [A, B, R][0] == A && [A, B, R][1..] == [B, R];
  }

  lemma ThreeStepB(names: set<string>)
    requires ThreeFolder(names)
    ensures PlanFrom([B, R], names, "file_", 2)
         == [Rename("b.txt", "file_2.txt", 2)] + PlanFrom([R], names, "file_", 3)
  {
    NotPrefixed();
    Suffixes();
    Candidates();
    ChooseFree("b.txt", names, "file_", 2, "file_2.txt");
    PlanFromTake([B, R], names, "file_", 2);
    assert [B, R][0] == B && [B, R][1..] == [R];
  }

  lemma ThreeStepR(names: set<string>)
    requires ThreeFolder(names)
    ensures PlanFrom([R], names, "file_", 3) == [Rename("report.pdf", "file_3.pdf", 3)]
  {
    NotPrefixed();
    Suffixes();
    Candidates();
    ChooseFree("report.pdf", names, "file_", 3, "file_3.pdf");
    PlanFromTake([R], names, "file_", 3);
    assert [R][0] == R && [R][1..] == [];
  }

  /** Three unprefixed files and no collisions: they are taken in name order
      and numbered 1, 2, 3 with their extensions kept; the counter does not
      skip values between files. */
  lemma ContiguousNumbering()
    ensures Plan([B, A, R], "file_", 1)
         == [Rename("a.txt", "file_1.txt", 1), Rename("b.txt", "file_2.txt", 2), Rename("report.pdf", "file_3.pdf", 3)]
  {
    SortThree();
    ThreeNames();
    var names := Names([B, A, R]);
    PlanUnfold([B, A, R], "file_", 1);
    ThreeStepA(names);
    ThreeStepB(names);
    ThreeStepR(names);
  }

  /** A folder whose only file already carries the prefix plans nothing. */
  lemma AlreadyPrefixed()
    ensures Plan([F1], "file_", 1) == []
  {
    PlanEmptyIff([F1], "file_", 1);
    assert StartsWith("file_1.txt", "file_");
  }

  lemma CollisionStep(names: set<string>)
    requires names == {"a.txt", "file_1.txt"}
    ensures PlanFrom([A, F1], names, "file_", 1) == [Rename("a.txt", "file_2.txt", 2)]
  {
    NotPrefixed();
    Suffixes();
    Candidates();
    assert StartsWith("file_1.txt", "file_");
    ChooseSecond("a.txt", names, "file_", 1, "file_2.txt");
    PlanFromTake([A, F1], names, "file_", 1);
    PlanFromSkip([F1], names, "file_", 3);
    assert [A, F1][0] == A && [A, F1][1..] == [F1] && [F1][0] == F1 && [F1][1..] == [];
  }

  lemma CollisionSorted()
    ensures SortByName([A, F1]) == [A, F1]
  {
    SortOne(F1);
    assert [A, F1][1..] == [F1];
    assert NameLe(A.name, F1.name);
  }

  lemma CollisionNames()
    ensures Names([A, F1]) == {"a.txt", "file_1.txt"}
  {
    assert A in [A, F1] && F1 in [A, F1];
  }

  /** A collision: `file_1.txt` is taken, so `a.txt` becomes `file_2.txt`. */
  lemma CollisionBumpsCounter()
    ensures Plan([A, F1], "file_", 1) == [Rename("a.txt", "file_2.txt", 2)]
  {
    CollisionSorted();
    CollisionNames();
    PlanUnfold([A, F1], "file_", 1);
    CollisionStep(Names([A, F1]));
  }

  /** A refusing operating system, and the three renames of RefusalDoesNotStopTheRest. */
  function RefuseB(o: string, n: string): bool { o == "b.txt" }

  const RA := Rename("a.txt", "file_1.txt", 1)
  const RB := Rename("b.txt", "file_2.txt", 2)
  const RC := Rename("c.txt", "file_3.txt", 3)

  lemma RefusalTail()
    ensures ApplyPlan([RB, RC], {"b.txt", "c.txt", "file_1.txt"}, RefuseB)
         == Report({"file_1.txt", "b.txt", "file_3.txt"}, [Failed, Renamed])
  {
    assert [RB, RC][1..] == [RC] && [RC][1..] == [];
    assert {"b.txt", "c.txt", "file_1.txt"} - {"c.txt"} + {"file_3.txt"} == {"file_1.txt", "b.txt", "file_3.txt"};
  }

  /** The second of three renames is refused; the first and third still go
      through and the refused file keeps its name. */
  lemma RefusalDoesNotStopTheRest()
    ensures Execute([RA, RB, RC], {"a.txt", "b.txt", "c.txt"}, false, RefuseB)
         == Report({"file_1.txt", "b.txt", "file_3.txt"}, [Renamed, Failed, Renamed])
  {
    RefusalTail();
    assert [RA, RB, RC][1..] == [RB, RC];
    assert {"a.txt", "b.txt", "c.txt"} - {"a.txt"} + {"file_1.txt"} == {"b.txt", "c.txt", "file_1.txt"};
  }

  /** A target that appeared after planning is skipped, and the loop goes on. */
  lemma LateCollisionIsSkipped()
    ensures var plan := [Rename("a.txt", "file_1.txt", 1), Rename("b.txt", "file_2.txt", 2)];
            var refuse := (o: string, n: string) => false;
            Execute(plan, {"a.txt", "b.txt", "file_1.txt"}, false, refuse)
              == Report({"a.txt", "file_1.txt", "file_2.txt"}, [SkippedTargetExists, Renamed])
  {
    var plan := [Rename("a.txt", "file_1.txt", 1), Rename("b.txt", "file_2.txt", 2)];
    var refuse := (o: string, n: string) => false;
    var s0, s2 := {"a.txt", "b.txt", "file_1.txt"}, {"a.txt", "file_1.txt", "file_2.txt"};
    assert plan[1..] == [plan[1]] && plan[1..][1..] == [];
    assert s0 - {"b.txt"} + {"file_2.txt"} == s2;
    assert ApplyPlan([plan[1]], s0, refuse) == Report(s2, [Renamed]);
    assert ApplyPlan(plan, s0, refuse) == Report(s2, [SkippedTargetExists, Renamed]);
  }
}
